=== FILE: README.md ===
# Auth app: a Dafny model of its decision logic

This project models the deterministic core of a small authentication app. The
app has an Express backend with two handlers, `register` and `login`, and a
React front end. The front end has a signup form, a login form, a persisted
auth store, two API wrappers and token-gated routes. Everything is pure
functions over immutable values:

- **Server.** The user collection is a map from email to user record. Each
  handler returns a response record: status, message, optional access token,
  optional sanitized user and optional cookie. `register` also returns the new
  collection. Password hashing, password comparison and token signing are
  fields of a `Crypto` value. Each is a function that returns `None` where the
  real call would throw.
- **Client forms.** Every regular expression is a hand-written predicate over
  `string`. The two email patterns are given as a match at explicit split
  points, and each has a lemma describing, in plain terms, which strings it
  accepts (`EmailPatternShape`, `LoginEmailPatternShape`). The five password
  rules are direct predicates. `ValidatePasswordEmptyIffStrong` states them
  together as one character-by-character condition.
- **Client state.** The `{token, user}` store sits next to a string-keyed
  storage map (`localStorage`). JSON encoding is an abstract `Codec`, and the
  HTTP exchange is an input (`HttpResult`).
- **Routing.** The route table and the `ProtectedRoute` gate are functions of
  the path and the token. Paths are matched as the client router does by
  default: ASCII letters case-insensitively, with trailing slashes ignored.

Modules follow the source files:

- `PasswordPolicy` and `SignupForm` model `Signup.tsx`.
- `LoginForm` models `Login.tsx`.
- `UserController` models `userController.ts`.
- `AuthStore` models `authStore.ts`.
- `AuthApi` models `authApi.ts`.
- `ProtectedRoute` models `ProtectedRoute.tsx`.
- `AppRoutes` models `App.tsx`.

Supporting modules:

- `JsText` holds the JavaScript string semantics the code relies on: `\s`,
  `trim`, line terminators, UTF-16 length and truthiness.
- `Router` holds route matching.
- `Wrappers` holds `Option`.
- `EndToEnd` connects server replies to the pages. It follows the HTTP
  client's default rule: a 2xx status resolves, and any other status throws
  with the body's message.

Two behaviours of the code are worth noting:

- The refresh cookie is sent with `SameSite=None`.
- A failed database write in `register` does not become a 500 reply (see
  Findings).

The numeric values of the `HTTP_STATUS` constants are the standard codes
(200, 201, 400, 401, 404, 500). The constants file is not part of this model.

## Model

| member | source | states |
|---|---|---|
| JsText.TrimEmptyIffBlank | frontend/src/pages/Signup.tsx:70-72 | `!x.trim()` holds exactly when every character of x is JavaScript whitespace, the empty string included |
| PasswordPolicy.FailingFrom | frontend/src/pages/Signup.tsx:35-43 | every rule listed from position i on fails for the password, and positions strictly increase, so each rule appears at most once |
| PasswordPolicy.FailingFromComplete | frontend/src/pages/Signup.tsx:39-42 | every failing rule from position i on is listed |
| PasswordPolicy.RankOfMessage | frontend/src/pages/Signup.tsx:8-29 | the five rule messages are distinct, so a message identifies its rule's position |
| PasswordPolicy.ValidatePassword | frontend/src/pages/Signup.tsx:33-44 | at most five messages, and each one belongs to a failing rule |
| PasswordPolicy.ValidatePasswordReportsFailures | frontend/src/pages/Signup.tsx:39-42 | a rule's message is in the result if and only if that rule's pattern fails |
| PasswordPolicy.ValidatePasswordOrdered | frontend/src/pages/Signup.tsx:35-43 | messages come out in rule declaration order (minLength, hasNumber, hasLowercase, hasUppercase, hasSpecialChar) |
| PasswordPolicy.ValidatePasswordEmptyIffStrong | frontend/src/pages/Signup.tsx:8-44 | the list is empty if and only if the password has no line terminator, has at least 8 UTF-16 units, and contains a digit, a lowercase ASCII letter, an uppercase ASCII letter and a special character |
| SignupForm.EmailPatternShape | frontend/src/pages/Signup.tsx:31 | the anchored email pattern accepts exactly the strings with no whitespace, exactly one `@` that is not first, and a `.` after the `@` that is neither the character right after it nor the last character |
| SignupForm.NameError | frontend/src/pages/Signup.tsx:70-71 | a name field gets its "… is required" message if and only if it is blank after trimming |
| SignupForm.EmailError | frontend/src/pages/Signup.tsx:72-73 | "Email is required" if and only if the email is blank; otherwise "Invalid email" if and only if the untrimmed text fails the pattern |
| SignupForm.PasswordError | frontend/src/pages/Signup.tsx:75-76 | the password gets an entry if and only if the policy fails, and the entry is exactly the policy's list |
| SignupForm.ValidateSignup | frontend/src/pages/Signup.tsx:68-76 | the error map has only the four field keys, and each key is present exactly under its field's failure condition, holding that field's messages |
| SignupForm.ValidateSignupEmptyIffAcceptable | frontend/src/pages/Signup.tsx:68-80 | the error map has no keys if and only if both names are non-blank, the email matches and the password is strong |
| SignupForm.HandleSignUp | frontend/src/pages/Signup.tsx:65-95 | the signup request is sent if and only if the error map is empty, and it carries the four fields; success navigates to /login; a thrown request leaves only `general`, holding the server message or "Signup failed"; the auth store is untouched |
| LoginForm.LoginEmailPatternShape | frontend/src/pages/Login.tsx:36 | the unanchored login pattern holds if and only if some `@` has a non-whitespace character before it and is followed by a whitespace-free run that contains a `.`, neither first in the run nor followed by whitespace or the end |
| LoginForm.SignupEmailPassesLogin | frontend/src/pages/Login.tsx:36 | every email the signup pattern accepts also passes the login check |
| LoginForm.LoginLooserThanSignup | frontend/src/pages/Login.tsx:36 | the converse fails: " a@b.c" passes the login check but not the signup pattern |
| LoginForm.ValidateForm | frontend/src/pages/Login.tsx:28-49 | valid if and only if no field error is recorded; "Email is required" only for an empty email; "Enter a valid email address" when the pattern fails; "Password is required" only for an empty password, with no strength rule |
| LoginForm.HandleSignIn | frontend/src/pages/Login.tsx:51-77 | no request when validation fails; a truthy `accessToken` clears the page error, shows the splash, schedules /dashboard with replace and the client becomes what `setAuth(accessToken, user)` leaves: the token and user in memory and both storage keys written; other data gives "Invalid email or password"; a thrown request gives the server message or "Something went wrong!" |
| UserController.RefreshCookie | backend/src/controllers/userController.ts:69-75 | cookie `refreshToken`: httpOnly, sameSite "none", secure only in production, maxAge 604800000 ms |
| UserController.SanitizeDropsOnlyPassword | backend/src/controllers/userController.ts:77-78 | the sanitized user loses the password and nothing else: putting the password back gives the stored record |
| UserController.Register | backend/src/controllers/userController.ts:11-39 | a known email gives 400 "User already exists" with no change; a failed hash gives 500 "registration failed" with no record; otherwise 201 whatever the write's outcome, and a successful write adds exactly one record holding the names, the email and the hash |
| UserController.RegisterKeepsKeyedByEmail | backend/src/controllers/userController.ts:15-30 | records stay filed under their own email, so emails stay unique, and at most one record is added |
| UserController.RegisterStoresNoPlaintext | backend/src/controllers/userController.ts:23-30 | the stored password is not the plaintext whenever the hash does not return its input; a corollary of `Register`'s ensures, which store the hash value |
| UserController.RegisterTwiceRefused | backend/src/controllers/userController.ts:15-21 | once the first call's write has settled, a second registration of the same email is refused with 400 and changes nothing |
| UserController.RegisterReportsUnstoredUser | backend/src/controllers/userController.ts:25-33 | as written: with a write that fails, the reply is still 201 and no record exists |
| UserController.RegisterAwaited | backend/src/controllers/userController.ts:23-38 | corrected: a known email gives 400; a failed hash or a failed write gives 500 "registration failed" and leaves the collection unchanged; a successful write gives 201 "User registered successfully"; the reply is 201 if and only if the collection changed, and then by exactly the new record |
| UserController.RegisterAwaitedAgrees | backend/src/controllers/userController.ts:23-33 | when the write succeeds, the corrected handler and the original give the same reply and collection |
| UserController.Login | backend/src/controllers/userController.ts:41-85 | checks run in order: unknown email gives 401 "Invalid email " (trailing space); a compare that returns false gives 401 "Invalid password"; a falsy access token gives 404 "user not found"; a throwing compare, access signer or refresh signer gives 500 "Login failed"; 200 "Login Successful" exactly when all checks pass; on 200 the access token signs {id, email}, the cookie carries the refresh token for {id}, and the user is the sanitized record; no other reply carries a token, cookie or user |
| UserController.LoginFailuresDistinguishable | backend/src/controllers/userController.ts:45-56 | unknown email and wrong password share status 401 but have different messages |
| AuthStore.Load | frontend/src/store/authStore.ts:19-20 | initial token = storage["token"], or null when absent; user = parse(storage["user"]) when that entry is present and non-empty, otherwise null |
| AuthStore.SetAuth | frontend/src/store/authStore.ts:22-26 | memory holds (t, u); storage holds "token" = t and "user" = serialize(u); no other key changes |
| AuthStore.Logout | frontend/src/store/authStore.ts:28-32 | memory holds (null, null); both keys are absent; no other key changes |
| AuthStore.InitConsistent | frontend/src/store/authStore.ts:19-20 | the start-up client, read from any storage, has its token mirroring storage["token"] and equals a reload from storage |
| AuthStore.ReloadAfterSetAuth | frontend/src/store/authStore.ts:19-26 | re-initialising from storage after `setAuth(t, u)` gives back t and u when the codec round-trips u |
| AuthStore.ReloadAfterLogout | frontend/src/store/authStore.ts:19-32 | re-initialising after `logout()` gives an empty store |
| AuthStore.LogoutIdempotent | frontend/src/store/authStore.ts:28-32 | logging out twice equals logging out once |
| AuthStore.RunKeepsMirror | frontend/src/store/authStore.ts:19-32 | after any sequence of `setAuth`/`logout` calls from a mirrored start, the in-memory token equals storage["token"], and no key other than "token" and "user" has changed |
| AuthStore.RunKeepsConsistent | frontend/src/store/authStore.ts:19-32 | with a codec that round-trips every stored user, memory always equals a reload from storage |
| AuthApi.Signup | frontend/src/api/authApi.ts:5-9 | posts exactly the four fields to /auth/signup, returns the data unchanged, and leaves the auth store and storage alone |
| AuthApi.Login | frontend/src/api/authApi.ts:12-21 | posts exactly (email, password) to /auth/login and returns the data unchanged; calls `setAuth(accessToken, user)` if and only if the data has a truthy `accessToken`; otherwise the client is unchanged |
| AuthApi.LoginKeepsConsistent | frontend/src/api/authApi.ts:15-17 | a login call keeps the store consistent with storage |
| ProtectedRoute.Gate | frontend/src/components/ProtectedRoute.tsx:5-13 | redirects to /login with replace if and only if the token is null or ""; otherwise returns the child unchanged |
| ProtectedRoute.GateSeesOnlyPresence | frontend/src/components/ProtectedRoute.tsx:6-8 | the decision depends on token presence alone, not on its contents |
| ProtectedRoute.NonEmptyTokenPasses | frontend/src/components/ProtectedRoute.tsx:8-12 | any non-empty string passes the gate |
| AppRoutes.RouteOf | frontend/src/App.tsx:13-43 | each of /login, /signup and /dashboard is selected exactly for the paths that match it; the three are disjoint; everything else falls to `*` |
| AppRoutes.Render | frontend/src/App.tsx:14-42 | /login and /signup redirect to /dashboard with replace if and only if the token is truthy, and otherwise show their page; /dashboard goes through the gate; any other path shows Login |
| AppRoutes.NoRedirectCycle | frontend/src/App.tsx:14-42 | for a fixed token, every path settles on a view after at most one redirect: with a token, the dashboard for the three named routes and Login elsewhere; without one, Signup for /signup and Login elsewhere |
| EndToEnd.LoginRepliesWellFormed | backend/src/controllers/userController.ts:64-79 | the only resolving login reply is 200, and it carries a user |
| EndToEnd.LoginReachesDashboard | frontend/src/pages/Login.tsx:60-67 | a 200 server login fed to the page stores the token and the sanitized user, and the scheduled /dashboard renders the dashboard |
| EndToEnd.RefusedLoginKeepsClient | frontend/src/pages/Login.tsx:71-73 | a refused server login leaves the client unchanged and shows the server's message |
| EndToEnd.DuplicateSignupShowsServerMessage | frontend/src/pages/Signup.tsx:86-90 | signing up with a registered email shows "User already exists" as the only error |
| EndToEnd.SampleFormAcceptable | frontend/src/pages/Signup.tsx:68-76 | the form (A, B, a@b.com, Secret1!) passes every client-side check |
| EndToEnd.SampleSession | backend/src/controllers/userController.ts:11-85 | sample session: register gives 201, a repeat (after the first write has settled) gives 400, a wrong password gives 401 "Invalid password", and the right one gives 200 with the token and a password-free user |

## Left out

- I/O: each HTTP exchange is an input value; the model never performs a request.
- Presentation: JSX, styling, `Dashboard.tsx`, `Sidebar.tsx` and `SplashScreen.tsx` are not modelled.
- The `loading` flags and console logging in both pages are not modelled.
- The 2000 ms timer before navigating to /dashboard is not modelled; navigation is a value the handler returns.
- Hashing, comparison and JWT signing live in `utils/password` and `utils/jwt`, which are not part of this model. They are parameters, so the hash-then-verify round trip is assumed per call where a lemma needs it, never proved.
- The database and query layer: the collection is a map from email to record. A throwing `findOne` or `toObject` is not modelled. Any uniqueness index defined in `models/user` is not part of this model.
- UserController.Register: a failed write leaves the collection unchanged and the handler keeps serving. The process-level effect of the unhandled rejection is not modelled: on Node 15 and later it ends the process unless the server entry point installs a handler, and that entry point is not part of this model.
- The check-then-write race in `register` between concurrent requests: only sequential calls are modelled.
- UserController.RegisterTwiceRefused: the model applies the write before the next request is handled. The source replies 201 before the unawaited write settles. So a client that waits for the 201 and submits again can still pass the existence check. The lemma, and the repeat in `EndToEnd.SampleSession`, hold only once the first write has gone through.
- JSON encoding: `Codec` is abstract. A stored "user" entry that `JSON.parse` rejects, which crashes start-up, is not modelled.
- A resolving login response with a truthy token but no `user` field is not modelled. `setAuth` would leave the in-memory user `undefined`. Storage would get the text "undefined" under "user", because `JSON.stringify(undefined)` is `undefined` and `setItem` turns it into that string. Every later start-up would then throw in `JSON.parse("undefined")`.
- React reactivity is not modelled. `App.tsx` reads the token once per render; `ProtectedRoute` subscribes to it. Both read the same store value here.
- Route matching ignores basenames and percent-decoding of the location.
- `backend/src/routes/userRoute.ts` only binds the handlers to their paths and is not modelled.
- The unused `verifyRefreshToken` import and any refresh endpoint are not modelled.
- Patterns other than `minLength` are matched on Unicode code points, not UTF-16 units. Every character they name is in the Basic Multilingual Plane, so the outcome is the same.
- UserController.Login: the 500 reply's raw error object is reduced to the flag `errorAttached`.

## Findings

| source | as written | input that shows it | evidently intended | confidence | as-written member | corrected member |
|---|---|---|---|---|---|---|
| backend/src/controllers/userController.ts:25-33 | `User.create` is not awaited, so the reply is 201 before the write settles. A rejected write has no handler, so it never reaches the catch block and becomes an unhandled rejection, which on Node 15 and later ends the process by default | a fresh email whose database write fails: the reply is 201 "User registered successfully" but no record is stored | await the write, so that a failure replies 500 "registration failed" | not executed; high | UserController.RegisterReportsUnstoredUser | UserController.RegisterAwaited |

`EndToEnd` runs the handler as written (`Register`). When the write succeeds, the corrected handler gives the same result (`RegisterAwaitedAgrees`).

=== FILE: app_routes.dfy ===
/** The application's route table: which view a location shows, or where it
    redirects, given the store's token. */
module AppRoutes {
  import opened Wrappers
  import opened JsText
  import opened Router
  import ProtectedRoute

  datatype View = LoginView | SignupView | DashboardView

  /** What a location renders: a view, or a redirect. */
  datatype Screen = Show(view: View) | Go(nav: Navigation)

  datatype Route = LoginRoute | SignupRoute | DashboardRoute | CatchAll

  const LoginPath: string := "/login"
  const SignupPath: string := "/signup"
  const DashboardPath: string := "/dashboard"

  const ToDashboard: Navigation := Navigation(DashboardPath, true)

  /** The route the router selects for `path`; the three static paths are
      disjoint, and `*` takes the rest. */
  function RouteOf(path: string): (r: Route)
    ensures r == LoginRoute <==> Matches(path, LoginPath)
    ensures r == SignupRoute <==> Matches(path, SignupPath)
    ensures r == DashboardRoute <==> Matches(path, DashboardPath)
  {
    if Matches(path, LoginPath) then
      assert path[1] == 'l' || path[1] == 'L';
      LoginRoute
    else if Matches(path, SignupPath) then
      assert path[1] == 's' || path[1] == 'S';
      SignupRoute
    else if Matches(path, DashboardPath) then DashboardRoute
    else CatchAll
  }

  function FromGate(o: ProtectedRoute.Outcome<View>): Screen {
    match o
    case Render(v) => Show(v)
    case Redirect(n) => Go(n)
  }

  /** The element the route table gives `path`. */
  function Render(path: string, token: Option<string>): (s: Screen)
    ensures RouteOf(path) == LoginRoute ==>
      (s.Go? <==> Truthy(token)) && (s.Go? ==> s.nav == ToDashboard) && (s.Show? ==> s.view == LoginView)
    ensures RouteOf(path) == SignupRoute ==>
      (s.Go? <==> Truthy(token)) && (s.Go? ==> s.nav == ToDashboard) && (s.Show? ==> s.view == SignupView)
    ensures RouteOf(path) == DashboardRoute ==>
      (s.Go? <==> !Truthy(token)) && (s.Go? ==> s.nav == ProtectedRoute.ToLogin) && (s.Show? ==> s.view == DashboardView)
    ensures RouteOf(path) == CatchAll ==> s == Show(LoginView)
  {
    match RouteOf(path)
    case LoginRoute => if Truthy(token) then Go(ToDashboard) else Show(LoginView)
    case SignupRoute => if Truthy(token) then Go(ToDashboard) else Show(SignupView)
    case DashboardRoute => FromGate(ProtectedRoute.Gate(token, DashboardView))
    case CatchAll => Show(LoginView)
  }

  /** The view reached from `path` following at most `hops` redirects, if any. */
  function Visit(path: string, token: Option<string>, hops: nat): Option<View>
    decreases hops
  {
    match Render(path, token)
    case Show(v) => Some(v)
    case Go(n) => if hops == 0 then None else Visit(n.to, token, hops - 1)
  }

  /** The view a visit settles on, for a fixed token. */
  function Landing(path: string, token: Option<string>): View {
    if Truthy(token) then
      if RouteOf(path) == CatchAll then LoginView else DashboardView
    else
      if RouteOf(path) == SignupRoute then SignupView else LoginView
  }

  /** No redirect cycle: for a fixed token every location settles on a view
      after at most one redirect, and on the view `Landing` names. */
  lemma NoRedirectCycle(path: string, token: Option<string>)
    ensures Visit(path, token, 1) == Some(Landing(path, token))
  {
    MatchesItself(DashboardPath);
    MatchesItself(LoginPath);
    assert RouteOf(DashboardPath) == DashboardRoute;
    assert RouteOf(LoginPath) == LoginRoute;
  }
}

=== FILE: auth_api.dfy ===
/** The two client API wrappers. The HTTP exchange itself is an input: each
    wrapper is given the outcome of its POST. */
module AuthApi {
  import opened Wrappers
  import opened JsText
  import opened AuthStore

  const SignupPath: string := "/auth/signup"
  const LoginPath: string := "/auth/login"

  datatype RequestBody =
    | SignupBody(firstName: string, lastName: string, email: string, password: string)
    | LoginBody(email: string, password: string)

  /** A POST of `body` to `path`. */
  datatype Request = Request(path: string, body: RequestBody)

  /** What awaiting the POST produced: the response's `data`, or a thrown error
      carrying the server's `response.data.message` when there was one. */
  datatype HttpResult<D> = Answered(data: D) | Threw(serverMessage: Option<string>)

  datatype SignupData = SignupData(message: string)
  datatype LoginData<U> = LoginData(message: string, accessToken: Option<string>, user: U)

  /** One wrapper call: the client state afterwards, the request sent and what
      the wrapper returns (or rethrows). */
  datatype Call<U, D> = Call(client: Client<U>, request: Request, result: HttpResult<D>)

  function SignupRequest(firstName: string, lastName: string, email: string, password: string): (r: Request)
    ensures r.path == SignupPath
    ensures r.body.SignupBody? && r.body.firstName == firstName && r.body.lastName == lastName
    ensures r.body.email == email && r.body.password == password
  {
    Request(SignupPath, SignupBody(firstName, lastName, email, password))
  }

  function LoginRequest(email: string, password: string): (r: Request)
    ensures r.path == LoginPath
    ensures r.body.LoginBody? && r.body.email == email && r.body.password == password
  {
    Request(LoginPath, LoginBody(email, password))
  }

  /** `signup`: posts the four fields and returns the response data; the auth
      store and storage are left alone. */
  function Signup<U>(c: Client<U>, firstName: string, lastName: string, email: string, password: string,
                     response: HttpResult<SignupData>): (call: Call<U, SignupData>)
    ensures call.client == c
    ensures call.request == SignupRequest(firstName, lastName, email, password)
    ensures call.result == response
  {
    Call(c, SignupRequest(firstName, lastName, email, password), response)
  }

  /** The response data carries a truthy `accessToken`. */
  predicate GrantsToken<U>(response: HttpResult<LoginData<U>>) {
    response.Answered? && Truthy(response.data.accessToken)
  }

  /** `login`: posts the credentials; on data with a truthy `accessToken` calls
      `setAuth(accessToken, user)`; returns the data as received. */
  function Login<U>(c: Client<U>, codec: Codec<U>, email: string, password: string,
                    response: HttpResult<LoginData<U>>): (call: Call<U, LoginData<U>>)
    ensures call.request == LoginRequest(email, password)
    ensures call.result == response
    ensures GrantsToken(response) ==>
      && call.client.store == Store(response.data.accessToken, Some(response.data.user))
      && call.client == SetAuth(c, codec, response.data.accessToken.value, response.data.user)
    ensures !GrantsToken(response) ==> call.client == c
  {
    var request := LoginRequest(email, password);
    match response
    case Threw(_) => Call(c, request, response)
    case Answered(data) =>
      if Truthy(data.accessToken) then
        Call(SetAuth(c, codec, data.accessToken.value, data.user), request, response)
      else
        Call(c, request, response)
  }

  /** A login call keeps the token mirror, and keeps the full store consistent
      with storage when the returned user round-trips. */
  lemma LoginKeepsConsistent<U>(c: Client<U>, codec: Codec<U>, email: string, password: string,
                                response: HttpResult<LoginData<U>>)
    requires Consistent(c, codec)
    requires response.Answered? ==> RoundTrips(codec, response.data.user)
    ensures Mirrored(Login(c, codec, email, password, response).client)
    ensures Consistent(Login(c, codec, email, password, response).client, codec)
  {
  }
}

=== FILE: auth_store.dfy ===
/** The client auth store: an in-memory `{token, user}` record mirrored into
    two entries of the browser's durable string storage. */
module AuthStore {
  import opened Wrappers

  /** Durable key-value storage (`localStorage`). */
  type Storage = map<string, string>

  const TokenKey: string := "token"
  const UserKey: string := "user"

  /** JSON encoding of the user profile, left abstract. */
  datatype Codec<!U> = Codec(serialize: U -> string, parse: string -> U)

  /** The codec gives `u` back from its encoding, and that encoding is non-empty
      (`JSON.stringify` of an object never yields ""). */
  ghost predicate RoundTrips<U>(codec: Codec<U>, u: U) {
    codec.serialize(u) != "" && codec.parse(codec.serialize(u)) == u
  }

  datatype Store<U> = Store(token: Option<string>, user: Option<U>)

  /** The in-memory store together with the durable storage it mirrors. */
  datatype Client<U> = Client(store: Store<U>, storage: Storage)

  /** The store's initial value, read from storage at start-up: the token entry
      as is (null when absent), the user entry parsed when present and
      non-empty, null otherwise. */
  function Load<U>(storage: Storage, codec: Codec<U>): (s: Store<U>)
    ensures s.token.Some? <==> TokenKey in storage
    ensures s.token.Some? ==> s.token.value == storage[TokenKey]
    ensures s.user.Some? <==> UserKey in storage && storage[UserKey] != ""
    ensures s.user.Some? ==> s.user.value == codec.parse(storage[UserKey])
  {
    Store(
      Get(storage, TokenKey),
      if UserKey in storage && storage[UserKey] != "" then Some(codec.parse(storage[UserKey])) else None)
  }

  /** The client at start-up: the store is read from storage once. */
  function Init<U>(storage: Storage, codec: Codec<U>): Client<U> {
    Client(Load(storage, codec), storage)
  }

  /** Storage entries other than the two auth keys are the same in both. */
  ghost predicate OthersUnchanged(before: Storage, after: Storage) {
    forall k | k != TokenKey && k != UserKey ::
      (k in before <==> k in after) && (k in before ==> before[k] == after[k])
  }

  /** `setAuth(token, user)`: write both entries, then both fields. */
  function SetAuth<U>(c: Client<U>, codec: Codec<U>, token: string, user: U): (c': Client<U>)
    ensures c'.store.token == Some(token) && c'.store.user == Some(user)
    ensures TokenKey in c'.storage && c'.storage[TokenKey] == token
    ensures UserKey in c'.storage && c'.storage[UserKey] == codec.serialize(user)
    ensures OthersUnchanged(c.storage, c'.storage)
  {
    Client(Store(Some(token), Some(user)), c.storage[TokenKey := token][UserKey := codec.serialize(user)])
  }

  /** `logout()`: remove both entries, then null both fields. */
  function Logout<U>(c: Client<U>): (c': Client<U>)
    ensures c'.store.token == None && c'.store.user == None
    ensures TokenKey !in c'.storage && UserKey !in c'.storage
    ensures OthersUnchanged(c.storage, c'.storage)
  {
    Client(Store(None, None), c.storage - {TokenKey, UserKey})
  }

  /** The in-memory token is the stored token entry. */
  predicate Mirrored<U>(c: Client<U>) {
    c.store.token == Get(c.storage, TokenKey)
  }

  /** The whole in-memory state is what a reload from storage would give. */
  ghost predicate Consistent<U>(c: Client<U>, codec: Codec<U>) {
    c.store == Load(c.storage, codec)
  }

  datatype Action<U> = SetAuthAction(token: string, user: U) | LogoutAction

  function Apply<U>(c: Client<U>, codec: Codec<U>, a: Action<U>): Client<U> {
    match a
    case SetAuthAction(t, u) => SetAuth(c, codec, t, u)
    case LogoutAction => Logout(c)
  }

  function Run<U>(c: Client<U>, codec: Codec<U>, actions: seq<Action<U>>): Client<U>
    decreases |actions|
  {
    if actions == [] then c else Run(Apply(c, codec, actions[0]), codec, actions[1..])
  }

  /** Every user a trace stores round-trips through the codec. */
  ghost predicate EncodableTrace<U>(codec: Codec<U>, actions: seq<Action<U>>) {
    forall k | 0 <= k < |actions| && actions[k].SetAuthAction? :: RoundTrips(codec, actions[k].user)
  }

  /** Whatever storage holds, the start-up client is mirrored and consistent,
      so every trace of `setAuth`/`logout` calls starts from a state that
      `RunKeepsMirror` and `RunKeepsConsistent` apply to. */
  lemma InitConsistent<U>(storage: Storage, codec: Codec<U>)
    ensures Mirrored(Init(storage, codec)) && Consistent(Init(storage, codec), codec)
  {
  }

  /** Reloading after `setAuth(t, u)` gives back `t` and `u`. */
  lemma ReloadAfterSetAuth<U>(c: Client<U>, codec: Codec<U>, t: string, u: U)
    requires RoundTrips(codec, u)
    ensures Load(SetAuth(c, codec, t, u).storage, codec) == Store(Some(t), Some(u))
  {
  }

  /** Reloading after `logout()` gives an empty store. */
  lemma ReloadAfterLogout<U>(c: Client<U>, codec: Codec<U>)
    ensures Load(Logout(c).storage, codec) == Store(None, None)
  {
  }

  /** `logout` is idempotent. */
  lemma LogoutIdempotent<U>(c: Client<U>)
    ensures Logout(Logout(c)) == Logout(c)
  {
  }

  /** The token mirror holds after any trace of `setAuth`/`logout` calls from a
      mirrored start, and no storage key but the two auth keys changes. */
  lemma {:induction false} RunKeepsMirror<U>(c: Client<U>, codec: Codec<U>, actions: seq<Action<U>>)
    requires Mirrored(c)
    ensures Mirrored(Run(c, codec, actions))
    ensures OthersUnchanged(c.storage, Run(c, codec, actions).storage)
    decreases |actions|
  {
    if actions != [] {
      var next := Apply(c, codec, actions[0]);
      RunKeepsMirror(next, codec, actions[1..]);
    }
  }

  /** With a codec that round-trips every stored user, a consistent client stays
      consistent: the in-memory state always equals a reload from storage. */
  lemma {:induction false} RunKeepsConsistent<U>(c: Client<U>, codec: Codec<U>, actions: seq<Action<U>>)
    requires Consistent(c, codec)
    requires EncodableTrace(codec, actions)
    ensures Consistent(Run(c, codec, actions), codec)
    decreases |actions|
  {
    if actions != [] {
      var next := Apply(c, codec, actions[0]);
      assert EncodableTrace(codec, actions[1..]) by {
        forall k | 0 <= k < |actions[1..]| && actions[1..][k].SetAuthAction?
          ensures RoundTrips(codec, actions[1..][k].user)
        {
          assert actions[1..][k] == actions[k + 1];
        }
      }
      RunKeepsConsistent(next, codec, actions[1..]);
    }
  }
}

=== FILE: end_to_end.dfy ===
/** The client pages wired to the server handlers: a server reply reaches the
    client as the request's outcome, with the HTTP client's default rule that
    a 2xx status resolves and any other status throws carrying the body's
    message. */
module EndToEnd {
  import opened Wrappers
  import opened JsText
  import opened UserController
  import AuthStore
  import AuthApi
  import SignupForm
  import LoginForm
  import AppRoutes
  import PasswordPolicy
  import Router

  predicate Resolves(status: nat) {
    200 <= status < 300
  }

  function DeliverSignup(r: Response): (h: AuthApi.HttpResult<AuthApi.SignupData>)
    ensures h.Answered? <==> Resolves(r.status)
    ensures h.Answered? ==> h.data.message == r.message
    ensures h.Threw? ==> h.serverMessage == Some(r.message)
  {
    if Resolves(r.status) then AuthApi.Answered(AuthApi.SignupData(r.message)) else AuthApi.Threw(Some(r.message))
  }

  /** A resolving login reply carries a user. */
  predicate WellFormedLoginReply(r: Response) {
    Resolves(r.status) ==> r.user.Some?
  }

  function DeliverLogin(r: Response): (h: AuthApi.HttpResult<AuthApi.LoginData<SafeUser>>)
    requires WellFormedLoginReply(r)
    ensures h.Answered? <==> Resolves(r.status)
    ensures h.Answered? ==> h.data == AuthApi.LoginData(r.message, r.accessToken, r.user.value)
    ensures h.Threw? ==> h.serverMessage == Some(r.message)
  {
    if Resolves(r.status) then AuthApi.Answered(AuthApi.LoginData(r.message, r.accessToken, r.user.value))
    else AuthApi.Threw(Some(r.message))
  }

  /** Every reply of the login handler is well formed, and it resolves only
      with status 200. */
  lemma LoginRepliesWellFormed(users: Users, crypto: Crypto, nodeEnv: Option<string>, email: string, password: string)
    ensures WellFormedLoginReply(Login(users, crypto, nodeEnv, email, password))
    ensures Resolves(Login(users, crypto, nodeEnv, email, password).status) ==>
      Login(users, crypto, nodeEnv, email, password).status == OK
  {
  }

  /** A successful server login, fed to the login page, stores the token and
      the sanitized user, schedules /dashboard, and the dashboard route then
      renders the dashboard itself. */
  lemma LoginReachesDashboard(
    users: Users, crypto: Crypto, nodeEnv: Option<string>, email: string, password: string,
    page: LoginForm.LoginPage, c: AuthStore.Client<SafeUser>, codec: AuthStore.Codec<SafeUser>)
    requires LoginForm.ValidateForm(email, password).valid
    requires Login(users, crypto, nodeEnv, email, password).status == OK
    ensures
      var reply := Login(users, crypto, nodeEnv, email, password);
      var r := LoginForm.HandleSignIn(page, c, codec, email, password, DeliverLogin(reply));
      && r.navigation == Some(LoginForm.AfterLogin)
      && r.client.store == AuthStore.Store(reply.accessToken, Some(Sanitize(users[email])))
      && AppRoutes.Render(r.navigation.value.to, r.client.store.token) == AppRoutes.Show(AppRoutes.DashboardView)
  {
    var reply := Login(users, crypto, nodeEnv, email, password);
    var r := LoginForm.HandleSignIn(page, c, codec, email, password, DeliverLogin(reply));
    assert AuthApi.GrantsToken(DeliverLogin(reply));
    Router.MatchesItself(AppRoutes.DashboardPath);
  }

  /** A refused server login leaves the client store as it was and shows the
      server's message. */
  lemma RefusedLoginKeepsClient(
    users: Users, crypto: Crypto, nodeEnv: Option<string>, email: string, password: string,
    page: LoginForm.LoginPage, c: AuthStore.Client<SafeUser>, codec: AuthStore.Codec<SafeUser>)
    requires LoginForm.ValidateForm(email, password).valid
    requires Login(users, crypto, nodeEnv, email, password).status != OK
    ensures
      var reply := Login(users, crypto, nodeEnv, email, password);
      var r := LoginForm.HandleSignIn(page, c, codec, email, password, DeliverLogin(reply));
      && r.client == c && r.navigation == None
      && r.page.error == Some(OrElse(Some(reply.message), "Something went wrong!"))
  {
    LoginRepliesWellFormed(users, crypto, nodeEnv, email, password);
  }

  /** Signing up with an email that is already registered shows the server's
      "User already exists" as the page's only error. */
  lemma DuplicateSignupShowsServerMessage<U>(
    users: Users, crypto: Crypto, newId: string, ok: bool, c: AuthStore.Client<U>, f: SignupForm.SignupFields)
    requires SignupForm.Acceptable(f)
    requires f.email in users
    ensures
      var reply := Register(users, crypto, RegisterBody(f.firstName, f.lastName, f.email, f.password), newId, ok).1;
      SignupForm.HandleSignUp(c, f, DeliverSignup(reply)).1.errors == map["general" := ["User already exists"]]
  {
    var reply := Register(users, crypto, RegisterBody(f.firstName, f.lastName, f.email, f.password), newId, ok).1;
    assert reply == Reply(BAD_REQUEST, "User already exists");
    assert DeliverSignup(reply) == AuthApi.Threw(Some("User already exists"));
    SignupForm.ValidateSignupEmptyIffAcceptable(f);
  }

  lemma SamplePasswordStrong()
    ensures PasswordPolicy.StrongPassword("Secret1!")
  {
    var p := "Secret1!";
    assert forall k | 0 <= k < |p| :: p[k] as int < 0x10000 && !JsText.IsLineTerminator(p[k]);
    assert '0' <= p[6] <= '9' && 'a' <= p[1] <= 'z' && 'A' <= p[0] <= 'Z';
    assert p[7] == PasswordPolicy.SpecialChars[3];
  }

  lemma SampleEmailMatches()
    ensures SignupForm.MatchesEmailPattern("a@b.com")
  {
    var e := "a@b.com";
    assert SignupForm.AllPlain(e[..1]) && SignupForm.AllPlain(e[2..3]) && SignupForm.AllPlain(e[4..]);
    assert SignupForm.EmailMatchAt(e, 1, 3);
  }

  lemma SampleNamesPresent()
    ensures !JsText.AllWhitespace("A") && !JsText.AllWhitespace("B") && !JsText.AllWhitespace("a@b.com")
  {
    assert !JsText.IsWhitespace("A"[0]);
    assert !JsText.IsWhitespace("B"[0]);
    assert !JsText.IsWhitespace("a@b.com"[0]);
  }

  /** The sample sign-up form passes every client-side check. */
  lemma SampleFormAcceptable()
    ensures SignupForm.Acceptable(SignupForm.SignupFields("A", "B", "a@b.com", "Secret1!"))
  {
    SamplePasswordStrong();
    SampleEmailMatches();
    SampleNamesPresent();
  }

  /** The sample session: first registration succeeds, the second is refused,
      a wrong password is refused, the right one logs in with a token and a
      password-free user. */
  lemma SampleSession(crypto: Crypto, nodeEnv: Option<string>, id: string, id2: string, h: string, at: string, rt: string)
    requires crypto.hash("Secret1!") == Some(h)
    requires crypto.compare("wrong", h) == Some(false)
    requires crypto.compare("Secret1!", h) == Some(true)
    requires crypto.signAccess(AccessClaims(id, "a@b.com")) == Some(at) && at != ""
    requires crypto.signRefresh(RefreshClaims(id)) == Some(rt)
    ensures
      var body := RegisterBody("A", "B", "a@b.com", "Secret1!");
      var (users, first) := Register(map[], crypto, body, id, true);
      && first.status == CREATED
      && Register(users, crypto, body, id2, true).1 == Reply(BAD_REQUEST, "User already exists")
      && Login(users, crypto, nodeEnv, "a@b.com", "wrong") == Reply(UNAUTHORIZED, "Invalid password")
      && Login(users, crypto, nodeEnv, "a@b.com", "Secret1!").status == OK
      && Login(users, crypto, nodeEnv, "a@b.com", "Secret1!").accessToken == Some(at)
      && Login(users, crypto, nodeEnv, "a@b.com", "Secret1!").user == Some(SafeUser(id, "A", "B", "a@b.com"))
  {
  }
}

=== FILE: js_text.dfy ===
/** The pieces of JavaScript string semantics the application relies on:
    the whitespace class `\s` (which is also what `String.prototype.trim`
    removes), the line terminators excluded by a regular-expression `.`,
    string length in UTF-16 code units, and truthiness of a nullable string. */
module JsText {
  import opened Wrappers

  /** ECMAScript LineTerminator: LF, CR, LINE SEPARATOR, PARAGRAPH SEPARATOR. */
  predicate IsLineTerminator(c: char) {
    c == '\n' || c == '\r' || c as int == 0x2028 || c as int == 0x2029
  }

  /** ECMAScript WhiteSpace or LineTerminator: the class `\s` and the
      characters `trim` strips (tab, VT, FF, space, NBSP, BOM and the
      Unicode space separators). */
  predicate IsWhitespace(c: char) {
    || IsLineTerminator(c)
    || c == '\t' || c as int == 0x0B || c as int == 0x0C || c == ' '
    || c as int == 0xA0 || c as int == 0x1680 || 0x2000 <= c as int <= 0x200A
    || c as int == 0x202F || c as int == 0x205F || c as int == 0x3000
    || c as int == 0xFEFF
  }

  predicate AllWhitespace(s: string) {
    forall k | 0 <= k < |s| :: IsWhitespace(s[k])
  }

  /** The end of the whitespace run that starts at `i`. */
  function SkipBlank(s: string, i: nat): (j: nat)
    requires i <= |s|
    ensures i <= j <= |s|
    ensures forall k | i <= k < j :: IsWhitespace(s[k])
    ensures j == |s| || !IsWhitespace(s[j])
    decreases |s| - i
  {
    if i < |s| && IsWhitespace(s[i]) then SkipBlank(s, i + 1) else i
  }

  /** The start of the whitespace run that ends at `j`. */
  function BackBlank(s: string, j: nat): (i: nat)
    requires j <= |s|
    ensures i <= j
    ensures forall k | i <= k < j :: IsWhitespace(s[k])
    ensures i == 0 || !IsWhitespace(s[i - 1])
  {
    if j > 0 && IsWhitespace(s[j - 1]) then BackBlank(s, j - 1) else j
  }

  /** `s` contains no whitespace at all, as a run of `\S` requires. */
  predicate NoWhitespace(s: string) {
    forall k | 0 <= k < |s| :: !IsWhitespace(s[k])
  }

  /** `s` with its leading whitespace removed. */
  function TrimStart(s: string): (r: string)
    ensures |r| <= |s| && r == s[|s| - |r|..]
    ensures AllWhitespace(s[..|s| - |r|])
    ensures r == [] || !IsWhitespace(r[0])
  {
    s[SkipBlank(s, 0)..]
  }

  /** `s` with its trailing whitespace removed. */
  function TrimEnd(s: string): (r: string)
    ensures |r| <= |s| && r == s[..|r|]
    ensures AllWhitespace(s[|r|..])
    ensures r == [] || !IsWhitespace(r[|r| - 1])
  {
    s[..BackBlank(s, |s|)]
  }

  /** `String.prototype.trim`. */
  function Trim(s: string): string {
    TrimEnd(TrimStart(s))
  }

  /** `!s.trim()` holds exactly for the strings made only of whitespace,
      the empty string included. */
  lemma TrimEmptyIffBlank(s: string)
    ensures Trim(s) == [] <==> AllWhitespace(s)
  {
    var t := TrimStart(s);
    if t == [] {
      assert s == s[..|s|];
    }
  }

  /** The length JavaScript reports for `s`: characters outside the Basic
      Multilingual Plane take two UTF-16 code units. */
  function Utf16Length(s: string): (n: nat)
    ensures |s| <= n <= 2 * |s|
    ensures (forall k | 0 <= k < |s| :: s[k] as int < 0x10000) ==> n == |s|
  {
    if s == [] then 0
    else (if s[0] as int < 0x10000 then 1 else 2) + Utf16Length(s[1..])
  }

  /** JavaScript truthiness of a `string | null` value: present and non-empty. */
  predicate Truthy(s: Option<string>) {
    s.Some? && s.value != ""
  }

  /** `s || fallback` for a `string | null | undefined` value. */
  function OrElse(s: Option<string>, fallback: string): (r: string)
    ensures Truthy(s) ==> r == s.value
    ensures !Truthy(s) ==> r == fallback
  {
    if Truthy(s) then s.value else fallback
  }
}

=== FILE: login_form.dfy ===
/** The login page's client-side check (`validateForm`) and its reaction to the
    login request (`handleSignIn`). */
module LoginForm {
  import opened Wrappers
  import opened JsText
  import opened Router
  import opened AuthStore
  import AuthApi
  import SignupForm

  /** s[p..q] splits into three non-empty runs of non-whitespace around an `@`
      at i and a `.` at j. */
  predicate LoginMatchAt(s: string, p: int, i: int, j: int, q: int) {
    && 0 <= p < i && i + 1 < j && j + 1 < q <= |s|
    && s[i] == '@' && s[j] == '.'
    && NoWhitespace(s[p..i]) && NoWhitespace(s[i + 1..j]) && NoWhitespace(s[j + 1..q])
  }

  /** `/\S+@\S+\.\S+/.test(s)`: the pattern is unanchored, so some substring
      of s must match it. */
  predicate MatchesLoginEmailPattern(s: string) {
    exists p, i, j, q | 0 <= p < |s| && p < i < |s| && i + 1 < j < |s| && j + 1 < q <= |s| ::
      LoginMatchAt(s, p, i, j, q)
  }

  /** What the login pattern accepts, in plain terms: an `@` with a
      non-whitespace character before it, followed by a whitespace-free run
      holding a `.` that is neither the run's first character nor followed by
      whitespace or the end of the string. */
  predicate LoginEmailShape(s: string) {
    exists i, j | 0 < i < |s| && i + 1 < j < |s| - 1 :: TightMatchAt(s, i, j)
  }

  /** The shortest match around an `@` at i and a `.` at j. */
  predicate TightMatchAt(s: string, i: int, j: int) {
    0 < i && j + 2 <= |s| && LoginMatchAt(s, i - 1, i, j, j + 2)
  }

  lemma LoginEmailPatternShape(s: string)
    ensures MatchesLoginEmailPattern(s) <==> LoginEmailShape(s)
  {
    if MatchesLoginEmailPattern(s) {
      var p, i, j, q :| 0 <= p < |s| && p < i < |s| && i + 1 < j < |s| && j + 1 < q <= |s|
        && LoginMatchAt(s, p, i, j, q);
      assert s[i - 1] == s[p..i][i - 1 - p];
      assert s[j + 1] == s[j + 1..q][0];
      assert TightMatchAt(s, i, j);
    }
    if LoginEmailShape(s) {
      var i, j :| 0 < i < |s| && i + 1 < j < |s| - 1 && TightMatchAt(s, i, j);
      assert LoginMatchAt(s, i - 1, i, j, j + 2);
    }
  }

  /** Every email the signup page accepts is accepted here too. */
  lemma SignupEmailPassesLogin(s: string)
    requires SignupForm.MatchesEmailPattern(s)
    ensures MatchesLoginEmailPattern(s)
  {
    var i, j :| 0 < i < |s| && i + 1 < j < |s| - 1 && SignupForm.EmailMatchAt(s, i, j);
    assert s[0..i] == s[..i];
    assert s[j + 1..|s|] == s[j + 1..];
    assert LoginMatchAt(s, 0, i, j, |s|);
  }

  /** The converse fails: the login check is not anchored, so surrounding
      whitespace (or a second `@`) gets through. */
  lemma LoginLooserThanSignup()
    ensures MatchesLoginEmailPattern(" a@b.c")
    ensures !SignupForm.MatchesEmailPattern(" a@b.c")
  {
    var s := " a@b.c";
    assert NoWhitespace(s[1..2]) && NoWhitespace(s[3..4]) && NoWhitespace(s[5..6]);
    assert LoginMatchAt(s, 1, 2, 4, 6);
    assert !NoWhitespace(s) by {
      assert IsWhitespace(s[0]);
    }
    SignupForm.EmailPatternShape(s);
  }

  /** The outcome of `validateForm`: its `valid` flag and the field errors it
      records. */
  datatype Validation = Validation(valid: bool, errors: map<string, string>)

  /** `validateForm`: the email must be non-empty and contain a match of the
      login pattern; the password must be non-empty. Nothing is trimmed. */
  function ValidateForm(email: string, password: string): (v: Validation)
    ensures v.valid <==> v.errors == map[]
    ensures v.errors.Keys <= {"email", "password"}
    ensures "email" in v.errors <==> email == "" || !MatchesLoginEmailPattern(email)
    ensures "email" in v.errors && email == "" ==> v.errors["email"] == "Email is required"
    ensures "email" in v.errors && email != "" ==> v.errors["email"] == "Enter a valid email address"
    ensures "password" in v.errors <==> password == ""
    ensures "password" in v.errors ==> v.errors["password"] == "Password is required"
  {
    var e0: map<string, string> := map[];
    var (e1, valid1) :=
      if email == "" then (e0["email" := "Email is required"], false)
      else if !MatchesLoginEmailPattern(email) then (e0["email" := "Enter a valid email address"], false)
      else (e0, true);
    var (e2, valid2) := if password == "" then (e1["password" := "Password is required"], false) else (e1, valid1);
    assert "email" in e2 || "password" in e2 || e2 == map[];
    Validation(valid2, e2)
  }

  /** The state the login page shows. */
  datatype LoginPage = LoginPage(fieldErrors: map<string, string>, error: Option<string>, showSplash: bool)

  /** One sign-in attempt: the page and client afterwards, the request sent
      (if any) and the navigation scheduled (if any). */
  datatype SignIn<U> = SignIn(page: LoginPage, client: Client<U>, request: Option<AuthApi.Request>, navigation: Option<Navigation>)

  const AfterLogin: Navigation := Navigation("/dashboard", true)

  /** `handleSignIn`. An invalid form sends nothing and only updates the field
      errors. Otherwise the login wrapper runs with the server's answer
      `response`: a truthy `accessToken` shows the splash screen and schedules
      /dashboard (replacing history); any other answer shows
      "Invalid email or password"; a thrown request shows the server's message
      or "Something went wrong!". */
  function HandleSignIn<U>(page: LoginPage, c: Client<U>, codec: Codec<U>, email: string, password: string,
                           response: AuthApi.HttpResult<AuthApi.LoginData<U>>): (r: SignIn<U>)
    ensures r.request.Some? <==> ValidateForm(email, password).valid
    ensures r.request.None? ==>
      r.client == c && r.navigation == None && r.page == page.(fieldErrors := ValidateForm(email, password).errors)
    ensures r.request.Some? ==> r.request.value == AuthApi.LoginRequest(email, password) && r.page.fieldErrors == map[]
    ensures r.request.Some? ==>
      (r.navigation.Some? <==> AuthApi.GrantsToken(response)) && (r.page.showSplash <==> AuthApi.GrantsToken(response) || page.showSplash)
    ensures r.request.Some? && AuthApi.GrantsToken(response) ==> r.page.error == None
    ensures r.request.Some? ==> r.client == AuthApi.Login(c, codec, email, password, response).client
    ensures r.navigation.Some? ==>
      r.navigation.value == AfterLogin && Truthy(r.client.store.token) && r.client.store.token == response.data.accessToken
    ensures r.request.Some? && response.Answered? && !AuthApi.GrantsToken(response) ==>
      r.page.error == Some("Invalid email or password") && r.client == c
    ensures r.request.Some? && response.Threw? ==>
      r.page.error == Some(OrElse(response.serverMessage, "Something went wrong!")) && r.client == c
  {
    var v := ValidateForm(email, password);
    if !v.valid then
      SignIn(page.(fieldErrors := v.errors), c, None, None)
    else
      var started := page.(fieldErrors := v.errors, error := None);
      var call := AuthApi.Login(c, codec, email, password, response);
      match call.result
      case Answered(data) =>
        if Truthy(data.accessToken) then
          SignIn(started.(showSplash := true), call.client, Some(call.request), Some(AfterLogin))
        else
          SignIn(started.(error := Some("Invalid email or password")), call.client, Some(call.request), None)
      case Threw(message) =>
        SignIn(started.(error := Some(OrElse(message, "Something went wrong!"))), call.client, Some(call.request), None)
  }
}

=== FILE: password_policy.dfy ===
/** The signup password policy: five rules checked in declaration order,
    each failing rule contributing its message to the result. */
module PasswordPolicy {
  import opened JsText

  datatype Rule = MinLength | HasNumber | HasLowercase | HasUppercase | HasSpecialChar

  /** The rules in the order the policy object declares them. */
  const Rules: seq<Rule> := [MinLength, HasNumber, HasLowercase, HasUppercase, HasSpecialChar]

  function Message(rule: Rule): string {
    match rule
    case MinLength => "Must be at least 8 characters"
    case HasNumber => "Must contain at least 1 number"
    case HasLowercase => "Must contain at least 1 lowercase letter"
    case HasUppercase => "Must contain at least 1 uppercase letter"
    case HasSpecialChar => "Must contain at least 1 special character"
  }

  /** The members of the class ``[-_~!@#$%^&*`+=|;:><,.?/]``. */
  const SpecialChars: string := "-_~!@#$%^&*`+=|;:><,.?/"

  predicate IsAsciiDigit(c: char) { '0' <= c <= '9' }
  predicate IsAsciiLower(c: char) { 'a' <= c <= 'z' }
  predicate IsAsciiUpper(c: char) { 'A' <= c <= 'Z' }
  predicate IsSpecial(c: char) { c in SpecialChars }

  /** `/^.{8,}$/`: no `m` and no `u` flag, so the whole string must be free of
      line terminators and hold at least eight UTF-16 code units. */
  predicate LongEnough(p: string) {
    (forall k | 0 <= k < |p| :: !IsLineTerminator(p[k])) && Utf16Length(p) >= 8
  }

  /** `/[0-9]/` */
  predicate HasDigit(p: string) { exists k | 0 <= k < |p| :: IsAsciiDigit(p[k]) }

  /** `/[a-z]/` */
  predicate HasLower(p: string) { exists k | 0 <= k < |p| :: IsAsciiLower(p[k]) }

  /** `/[A-Z]/` */
  predicate HasUpper(p: string) { exists k | 0 <= k < |p| :: IsAsciiUpper(p[k]) }

  /** ``/[-_~!@#$%^&*`+=|;:><,.?/]/`` */
  predicate HasSpecial(p: string) { exists k | 0 <= k < |p| :: IsSpecial(p[k]) }

  /** `regex.test(p)` for the rule's pattern. */
  predicate Passes(rule: Rule, p: string) {
    match rule
    case MinLength => LongEnough(p)
    case HasNumber => HasDigit(p)
    case HasLowercase => HasLower(p)
    case HasUppercase => HasUpper(p)
    case HasSpecialChar => HasSpecial(p)
  }

  /** A password the policy accepts, stated character by character and without
      reference to the rule table. */
  predicate StrongPassword(p: string) {
    && (forall k | 0 <= k < |p| :: !IsLineTerminator(p[k]))
    && Utf16Length(p) >= 8
    && (exists k | 0 <= k < |p| :: '0' <= p[k] <= '9')
    && (exists k | 0 <= k < |p| :: 'a' <= p[k] <= 'z')
    && (exists k | 0 <= k < |p| :: 'A' <= p[k] <= 'Z')
    && (exists k | 0 <= k < |p| :: p[k] in SpecialChars)
  }

  /** Position of a rule in declaration order. */
  function Index(rule: Rule): (i: nat)
    ensures i < |Rules| && Rules[i] == rule
  {
    match rule
    case MinLength => 0
    case HasNumber => 1
    case HasLowercase => 2
    case HasUppercase => 3
    case HasSpecialChar => 4
  }

  /** Position of a message in declaration order; |Rules| for any other string. */
  function Rank(m: string): nat {
    if m == Message(MinLength) then 0
    else if m == Message(HasNumber) then 1
    else if m == Message(HasLowercase) then 2
    else if m == Message(HasUppercase) then 3
    else if m == Message(HasSpecialChar) then 4
    else 5
  }

  /** The five messages are distinct, so a message identifies its rule. */
  lemma RankOfMessage(rule: Rule)
    ensures Rank(Message(rule)) == Index(rule)
  {
    var lower := Message(HasLowercase);
    var upper := Message(HasUppercase);
    assert lower[24] != upper[24];
  }

  /** The failing rules among Rules[i..], in declaration order. */
  function FailingFrom(p: string, i: nat): (failing: seq<Rule>)
    requires i <= |Rules|
    ensures |failing| <= |Rules| - i
    ensures forall k | 0 <= k < |failing| :: i <= Index(failing[k]) && !Passes(failing[k], p)
    ensures forall k1, k2 | 0 <= k1 < k2 < |failing| :: Index(failing[k1]) < Index(failing[k2])
    decreases |Rules| - i
  {
    if i == |Rules| then []
    else if Passes(Rules[i], p) then FailingFrom(p, i + 1)
    else [Rules[i]] + FailingFrom(p, i + 1)
  }

  /** Every failing rule of Rules[i..] is listed. */
  lemma {:induction false} FailingFromComplete(p: string, i: nat, j: nat)
    requires i <= j < |Rules| && !Passes(Rules[j], p)
    ensures Rules[j] in FailingFrom(p, i)
    decreases |Rules| - i
  {
    if i < j {
      FailingFromComplete(p, i + 1, j);
    }
  }

  /** `validatePassword`: the messages of every failing rule, in declaration
      order, each at most once. */
  function ValidatePassword(p: string): (errors: seq<string>)
    ensures |errors| <= |Rules|
    ensures forall k | 0 <= k < |errors| :: exists j | 0 <= j < |Rules| :: errors[k] == Message(Rules[j]) && !Passes(Rules[j], p)
  {
    var failing := FailingFrom(p, 0);
    seq(|failing|, k requires 0 <= k < |failing| => Message(failing[k]))
  }

  /** Every failing rule is reported, and nothing else. */
  lemma ValidatePasswordReportsFailures(p: string, rule: Rule)
    ensures Message(rule) in ValidatePassword(p) <==> !Passes(rule, p)
  {
    var failing := FailingFrom(p, 0);
    var errors := ValidatePassword(p);
    if !Passes(rule, p) {
      FailingFromComplete(p, 0, Index(rule));
      var k :| 0 <= k < |failing| && failing[k] == rule;
      assert errors[k] == Message(rule);
    } else if Message(rule) in errors {
      var k :| 0 <= k < |errors| && errors[k] == Message(rule);
      assert errors[k] == Message(failing[k]);
      RankOfMessage(rule);
      RankOfMessage(failing[k]);
      assert false;
    }
  }

  /** Messages come out in rule declaration order, hence each at most once. */
  lemma ValidatePasswordOrdered(p: string)
    ensures forall k1, k2 | 0 <= k1 < k2 < |ValidatePassword(p)| ::
      Rank(ValidatePassword(p)[k1]) < Rank(ValidatePassword(p)[k2])
  {
    var failing := FailingFrom(p, 0);
    var errors := ValidatePassword(p);
    forall k | 0 <= k < |errors| ensures Rank(errors[k]) == Index(failing[k]) {
      RankOfMessage(failing[k]);
    }
  }

  /** The policy reports nothing exactly for the passwords that satisfy all
      five conditions. */
  lemma ValidatePasswordEmptyIffStrong(p: string)
    ensures ValidatePassword(p) == [] <==> StrongPassword(p)
  {
    ValidatePasswordReportsFailures(p, MinLength);
    ValidatePasswordReportsFailures(p, HasNumber);
    ValidatePasswordReportsFailures(p, HasLowercase);
    ValidatePasswordReportsFailures(p, HasUppercase);
    ValidatePasswordReportsFailures(p, HasSpecialChar);
    var errors := ValidatePassword(p);
    if errors != [] {
      var j :| 0 <= j < |Rules| && errors[0] == Message(Rules[j]) && !Passes(Rules[j], p);
    }
  }
}

=== FILE: protected_route.dfy ===
/** `ProtectedRoute`: renders its child only while the store holds a truthy
    token, and otherwise redirects to the login view. */
module ProtectedRoute {
  import opened Wrappers
  import opened JsText
  import opened Router

  datatype Outcome<E> = Render(child: E) | Redirect(nav: Navigation)

  const ToLogin: Navigation := Navigation("/login", true)

  function Gate<E>(token: Option<string>, child: E): (o: Outcome<E>)
    ensures o.Redirect? <==> !Truthy(token)
    ensures o.Redirect? ==> o.nav == ToLogin
    ensures o.Render? ==> o.child == child
  {
    if !Truthy(token) then Redirect(ToLogin) else Render(child)
  }

  /** The gate looks at token presence only: any two truthy tokens, whatever
      their contents or expiry, give the same decision, and so do any two
      falsy ones (null and ""). */
  lemma GateSeesOnlyPresence<E>(t1: Option<string>, t2: Option<string>, child: E)
    requires Truthy(t1) == Truthy(t2)
    ensures Gate(t1, child) == Gate(t2, child)
  {
  }

  /** Every non-empty string passes the gate. */
  lemma NonEmptyTokenPasses<E>(t: string, child: E)
    requires t != ""
    ensures Gate(Some(t), child) == Render(child)
  {
  }
}

=== FILE: router.dfy ===
/** The parts of the client router the application depends on: a navigation
    request and how a location path is matched against a static route path. */
module Router {

  /** `navigate(to, { replace })` or `<Navigate to=… replace/>`. */
  datatype Navigation = Navigation(to: string, replace: bool)

  function AsciiLower(c: char): char {
    if 'A' <= c <= 'Z' then (c as int + 32) as char else c
  }

  /** The router's default matching of a static, lower-case route path: the
      location must start with the route path, compared case-insensitively for
      ASCII letters, and may continue only with slashes. */
  predicate Matches(path: string, pattern: string) {
    && |path| >= |pattern|
    && (forall k | 0 <= k < |pattern| :: AsciiLower(path[k]) == pattern[k])
    && (forall k | |pattern| <= k < |path| :: path[k] == '/')
  }

  /** A lower-case route path matches itself. */
  lemma MatchesItself(pattern: string)
    requires forall k | 0 <= k < |pattern| :: AsciiLower(pattern[k]) == pattern[k]
    ensures Matches(pattern, pattern)
  {
  }
}

=== FILE: signup_form.dfy ===
/** The signup page's client-side checks (`emailRegex`, the validation part of
    `handleSignUp`) and the page's reaction to the signup request. */
module SignupForm {
  import opened Wrappers
  import opened JsText
  import opened PasswordPolicy
  import AuthApi
  import AuthStore

  /** A member of the class `[^\s@]`. */
  predicate PlainChar(c: char) {
    !IsWhitespace(c) && c != '@'
  }

  predicate AllPlain(s: string) {
    forall k | 0 <= k < |s| :: PlainChar(s[k])
  }

  /** s splits into three non-empty runs of plain characters around an `@` at
      i and a `.` at j. */
  predicate EmailMatchAt(s: string, i: int, j: int) {
    && 0 < i && i + 1 < j < |s| - 1
    && s[i] == '@' && s[j] == '.'
    && AllPlain(s[..i]) && AllPlain(s[i + 1..j]) && AllPlain(s[j + 1..])
  }

  /** `emailRegex.test(s)` for the anchored `/^[^\s@]+@[^\s@]+\.[^\s@]+$/`. */
  predicate MatchesEmailPattern(s: string) {
    exists i, j | 0 < i < |s| && i + 1 < j < |s| - 1 :: EmailMatchAt(s, i, j)
  }

  /** s[i] is the only `@` in s. */
  predicate SoleAt(s: string, i: int) {
    0 <= i < |s| && s[i] == '@' && forall k | 0 <= k < |s| && k != i :: s[k] != '@'
  }

  /** After the `@` at i there is a `.` that is neither the first character
      after the `@` nor the last character of s. */
  predicate DotInDomain(s: string, i: int) {
    exists j | i + 1 < j < |s| - 1 :: 0 <= j && s[j] == '.'
  }

  /** What the email pattern accepts, in plain terms: no whitespace anywhere,
      exactly one `@`, not first, and a `.` inside the part after it. */
  predicate EmailShape(s: string) {
    NoWhitespace(s) && exists i | 0 < i < |s| :: SoleAt(s, i) && DotInDomain(s, i)
  }

  lemma MatchHasShape(s: string)
    requires MatchesEmailPattern(s)
    ensures EmailShape(s)
  {
    var i, j :| 0 < i < |s| && i + 1 < j < |s| - 1 && EmailMatchAt(s, i, j);
    forall k | 0 <= k < |s| && k != i ensures PlainChar(s[k]) {
      if k < i {
        assert s[k] == s[..i][k];
      } else if k < j {
        assert s[k] == s[i + 1..j][k - i - 1];
      } else if k > j {
        assert s[k] == s[j + 1..][k - j - 1];
      }
    }
    assert SoleAt(s, i);
    assert DotInDomain(s, i);
  }

  lemma ShapeIsMatch(s: string)
    requires EmailShape(s)
    ensures MatchesEmailPattern(s)
  {
    var i :| 0 < i < |s| && SoleAt(s, i) && DotInDomain(s, i);
    var j :| i + 1 < j < |s| - 1 && 0 <= j && s[j] == '.';
    assert AllPlain(s[..i]);
    assert AllPlain(s[i + 1..j]);
    assert AllPlain(s[j + 1..]);
    assert EmailMatchAt(s, i, j);
  }

  /** The email pattern accepts exactly the strings of the plain-terms shape. */
  lemma EmailPatternShape(s: string)
    ensures MatchesEmailPattern(s) <==> EmailShape(s)
  {
    if MatchesEmailPattern(s) {
      MatchHasShape(s);
    }
    if EmailShape(s) {
      ShapeIsMatch(s);
    }
  }

  /** Per-field error lists, keyed by field name. */
  type FieldErrors = map<string, seq<string>>

  /** The signup form's fields as typed. */
  datatype SignupFields = SignupFields(firstName: string, lastName: string, email: string, password: string)

  /** The error a name field gets: required when blank after trimming. */
  function NameError(name: string, message: string): (e: Option<seq<string>>)
    ensures e.Some? <==> AllWhitespace(name)
    ensures e.Some? ==> e.value == [message]
  {
    TrimEmptyIffBlank(name);
    if Trim(name) == "" then Some([message]) else None
  }

  /** The error the email field gets: required when blank after trimming,
      otherwise invalid when the untrimmed text fails the pattern. */
  function EmailError(email: string): (e: Option<seq<string>>)
    ensures e.Some? <==> AllWhitespace(email) || !MatchesEmailPattern(email)
    ensures e.Some? && AllWhitespace(email) ==> e.value == ["Email is required"]
    ensures e.Some? && !AllWhitespace(email) ==> e.value == ["Invalid email"]
  {
    TrimEmptyIffBlank(email);
    if Trim(email) == "" then Some(["Email is required"])
    else if !MatchesEmailPattern(email) then Some(["Invalid email"])
    else None
  }

  /** The error the password field gets: the policy's messages, when any. */
  function PasswordError(password: string): (e: Option<seq<string>>)
    ensures e.Some? <==> !StrongPassword(password)
    ensures e.Some? ==> e.value == ValidatePassword(password)
  {
    ValidatePasswordEmptyIffStrong(password);
    var passwordErrors := ValidatePassword(password);
    if |passwordErrors| > 0 then Some(passwordErrors) else None
  }

  /** `if (error) errors[key] = error`. */
  function Record(errors: FieldErrors, key: string, e: Option<seq<string>>): (r: FieldErrors)
    ensures key in r <==> key in errors || e.Some?
    ensures e.Some? ==> r[key] == e.value
    ensures forall k | k in errors && k != key :: k in r && r[k] == errors[k]
    ensures forall k | k in r && k != key :: k in errors
  {
    if e.Some? then errors[key := e.value] else errors
  }

  /** The field checks of `handleSignUp`: names and email must not be blank
      after trimming, the untrimmed email must match `emailRegex`, and the
      password must pass `validatePassword`. */
  function ValidateSignup(f: SignupFields): (errors: FieldErrors)
    ensures errors.Keys <= {"firstName", "lastName", "email", "password"}
    ensures "firstName" in errors <==> AllWhitespace(f.firstName)
    ensures "firstName" in errors ==> errors["firstName"] == ["First name is required"]
    ensures "lastName" in errors <==> AllWhitespace(f.lastName)
    ensures "lastName" in errors ==> errors["lastName"] == ["Last name is required"]
    ensures "email" in errors <==> AllWhitespace(f.email) || !MatchesEmailPattern(f.email)
    ensures "email" in errors && AllWhitespace(f.email) ==> errors["email"] == ["Email is required"]
    ensures "email" in errors && !AllWhitespace(f.email) ==> errors["email"] == ["Invalid email"]
    ensures "password" in errors <==> !StrongPassword(f.password)
    ensures "password" in errors ==> errors["password"] == ValidatePassword(f.password)
  {
    assert "firstName"[0] != "lastName"[0] && "firstName"[0] != "email"[0] && "firstName"[0] != "password"[0];
    assert "lastName"[0] != "email"[0] && "lastName"[0] != "password"[0] && "email"[0] != "password"[0];
    var e1 := Record(map[], "firstName", NameError(f.firstName, "First name is required"));
    var e2 := Record(e1, "lastName", NameError(f.lastName, "Last name is required"));
    var e3 := Record(e2, "email", EmailError(f.email));
    Record(e3, "password", PasswordError(f.password))
  }

  /** A form the client-side checks let through. */
  predicate Acceptable(f: SignupFields) {
    && !AllWhitespace(f.firstName)
    && !AllWhitespace(f.lastName)
    && !AllWhitespace(f.email)
    && MatchesEmailPattern(f.email)
    && StrongPassword(f.password)
  }

  /** The page after a submit: the error map it shows, the request it sent
      (if any) and where it navigates. */
  datatype SignupPage = SignupPage(errors: FieldErrors, request: Option<AuthApi.Request>, navigateTo: Option<string>)

  /** `handleSignUp`. The request is sent only when no field has an error; the
      server's answer to it is the input `response`. On success the page moves
      to /login; on a thrown request the error map becomes a single `general`
      entry with the server's message or "Signup failed". */
  function HandleSignUp<U>(client: AuthStore.Client<U>, f: SignupFields, response: AuthApi.HttpResult<AuthApi.SignupData>)
    : (r: (AuthStore.Client<U>, SignupPage))
    ensures r.0 == client
    ensures r.1.request.Some? <==> ValidateSignup(f) == map[]
    ensures r.1.request.Some? ==> r.1.request.value == AuthApi.SignupRequest(f.firstName, f.lastName, f.email, f.password)
    ensures r.1.request.None? ==> r.1.errors == ValidateSignup(f) && r.1.navigateTo == None
    ensures r.1.request.Some? && response.Answered? ==> r.1.errors == map[] && r.1.navigateTo == Some("/login")
    ensures r.1.request.Some? && response.Threw? ==>
      && r.1.errors == map["general" := [OrElse(response.serverMessage, "Signup failed")]]
      && r.1.navigateTo == None
  {
    var errors := ValidateSignup(f);
    if |errors.Keys| == 0 then
      var call := AuthApi.Signup(client, f.firstName, f.lastName, f.email, f.password, response);
      match call.result
      case Answered(_) => (call.client, SignupPage(errors, Some(call.request), Some("/login")))
      case Threw(message) =>
        (call.client, SignupPage(map["general" := [OrElse(message, "Signup failed")]], Some(call.request), None))
    else
      (client, SignupPage(errors, None, None))
  }

  /** The error map is empty exactly for forms that pass every check. */
  lemma ValidateSignupEmptyIffAcceptable(f: SignupFields)
    ensures ValidateSignup(f) == map[] <==> Acceptable(f)
  {
    var errors := ValidateSignup(f);
    if Acceptable(f) {
      assert "firstName" !in errors && "lastName" !in errors;
      assert "email" !in errors && "password" !in errors;
      assert errors.Keys == {};
    } else {
      assert "firstName" in errors || "lastName" in errors || "email" in errors || "password" in errors;
    }
  }
}

=== FILE: user_controller.dfy ===
/** The server's `register` and `login` handlers as pure transitions over the
    user collection. Hashing, password comparison and token signing are
    supplied as functions; each returns None where the real call throws. */
module UserController {
  import opened Wrappers
  import opened JsText

  const OK: nat := 200
  const CREATED: nat := 201
  const BAD_REQUEST: nat := 400
  const UNAUTHORIZED: nat := 401
  const NOT_FOUND: nat := 404
  const INTERNAL_SERVER_ERROR: nat := 500

  /** A stored user; `password` holds the hash. */
  datatype UserRecord = UserRecord(id: string, firstName: string, lastName: string, email: string, password: string)

  /** A user as sent to the client: the record without its password. */
  datatype SafeUser = SafeUser(id: string, firstName: string, lastName: string, email: string)

  /** The user collection, looked up by email. */
  type Users = map<string, UserRecord>

  /** Each record is filed under its own email. */
  predicate KeyedByEmail(users: Users) {
    forall e | e in users :: users[e].email == e
  }

  datatype AccessClaims = AccessClaims(id: string, email: string)
  datatype RefreshClaims = RefreshClaims(id: string)

  /** The password and token helpers the handlers call. */
  datatype Crypto = Crypto(
    hash: string -> Option<string>,
    compare: (string, string) -> Option<bool>,
    signAccess: AccessClaims -> Option<string>,
    signRefresh: RefreshClaims -> Option<string>)

  /** A `Set-Cookie` as `res.cookie` writes it. */
  datatype Cookie = Cookie(name: string, value: string, httpOnly: bool, secure: bool, sameSite: string, maxAgeMs: nat)

  /** Status and JSON body of a reply, plus the cookie it sets. `errorAttached`
      marks a body that also carries the caught error object. */
  datatype Response = Response(
    status: nat, message: string, accessToken: Option<string>, user: Option<SafeUser>,
    cookie: Option<Cookie>, errorAttached: bool)

  /** A reply with a message only. */
  function Reply(status: nat, message: string): Response {
    Response(status, message, None, None, None, false)
  }

  /** The reply of a handler's catch block. */
  function Failure(message: string): Response {
    Response(INTERNAL_SERVER_ERROR, message, None, None, None, true)
  }

  /** Seven days in milliseconds. */
  const RefreshMaxAgeMs: nat := 7 * 24 * 60 * 60 * 1000

  /** The refresh-token cookie: script-inaccessible, sent cross-site, secure
      only when the environment is "production", kept for seven days. */
  function RefreshCookie(refreshToken: string, nodeEnv: Option<string>): (c: Cookie)
    ensures c.name == "refreshToken" && c.value == refreshToken
    ensures c.httpOnly && c.sameSite == "none" && c.maxAgeMs == 604800000
    ensures c.secure <==> nodeEnv == Some("production")
  {
    Cookie("refreshToken", refreshToken, true, nodeEnv == Some("production"), "none", RefreshMaxAgeMs)
  }

  function Sanitize(u: UserRecord): SafeUser {
    SafeUser(u.id, u.firstName, u.lastName, u.email)
  }

  /** Puts a password back on a sanitized user. */
  function WithPassword(s: SafeUser, password: string): UserRecord {
    UserRecord(s.id, s.firstName, s.lastName, s.email, password)
  }

  /** Sanitizing drops the password and nothing else. */
  lemma SanitizeDropsOnlyPassword(u: UserRecord)
    ensures WithPassword(Sanitize(u), u.password) == u
    ensures Sanitize(WithPassword(Sanitize(u), "")) == Sanitize(u)
  {
  }

  datatype RegisterBody = RegisterBody(firstName: string, lastName: string, email: string, password: string)

  /** `register`. `newId` is the id the database assigns; `createSucceeds` is
      whether the write that is started but not awaited goes through. */
  function Register(users: Users, crypto: Crypto, body: RegisterBody, newId: string, createSucceeds: bool)
    : (r: (Users, Response))
    ensures body.email in users ==> r.0 == users && r.1 == Reply(BAD_REQUEST, "User already exists")
    ensures body.email !in users && crypto.hash(body.password).None? ==>
      r.0 == users && r.1 == Failure("registration failed")
    ensures body.email !in users && crypto.hash(body.password).Some? ==>
      && r.1 == Reply(CREATED, "User registered successfully")
      && (createSucceeds ==>
            && r.0.Keys == users.Keys + {body.email}
            && r.0[body.email] == UserRecord(newId, body.firstName, body.lastName, body.email, crypto.hash(body.password).value)
            && forall e | e in users :: r.0[e] == users[e])
      && (!createSucceeds ==> r.0 == users)
    ensures r.1.status in {CREATED, BAD_REQUEST, INTERNAL_SERVER_ERROR}
    ensures r.1.accessToken.None? && r.1.user.None? && r.1.cookie.None?
  {
    if body.email in users then
      (users, Reply(BAD_REQUEST, "User already exists"))
    else
      match crypto.hash(body.password)
      case None => (users, Failure("registration failed"))
      case Some(hashed) =>
        var created := if createSucceeds
          then users[body.email := UserRecord(newId, body.firstName, body.lastName, body.email, hashed)]
          else users;
        (created, Reply(CREATED, "User registered successfully"))
  }

  /** Registration keeps every record filed under its own email, so no two
      records share an email, and adds at most one record. */
  lemma RegisterKeepsKeyedByEmail(users: Users, crypto: Crypto, body: RegisterBody, newId: string, createSucceeds: bool)
    requires KeyedByEmail(users)
    ensures KeyedByEmail(Register(users, crypto, body, newId, createSucceeds).0)
    ensures |Register(users, crypto, body, newId, createSucceeds).0| <= |users| + 1
  {
  }

  /** A stored password is never the plaintext, provided the hash never
      returns its input. */
  lemma RegisterStoresNoPlaintext(users: Users, crypto: Crypto, body: RegisterBody, newId: string)
    requires body.email !in users
    requires crypto.hash(body.password) != Some(body.password)
    ensures var after := Register(users, crypto, body, newId, true).0;
      body.email in after ==> after[body.email].password != body.password
  {
  }

  /** Registering the same body twice: the second call is refused with 400 and
      changes nothing. */
  lemma RegisterTwiceRefused(users: Users, crypto: Crypto, body: RegisterBody, id1: string, id2: string, ok2: bool)
    requires crypto.hash(body.password).Some?
    ensures var after := Register(users, crypto, body, id1, true).0;
      Register(after, crypto, body, id2, ok2) == (after, Reply(BAD_REQUEST, "User already exists"))
  {
  }

  /** As written, the handler can report a registration that was never
      stored: when the unawaited write fails it still answers 201. */
  lemma RegisterReportsUnstoredUser(users: Users, crypto: Crypto, body: RegisterBody, newId: string)
    requires body.email !in users && crypto.hash(body.password).Some?
    ensures Register(users, crypto, body, newId, false).1.status == CREATED
    ensures body.email !in Register(users, crypto, body, newId, false).0
  {
  }

  /** `register` with the write awaited inside the `try`, so that a failed
      write reaches the catch block like a failed hash does. */
  function RegisterAwaited(users: Users, crypto: Crypto, body: RegisterBody, newId: string, createSucceeds: bool)
    : (r: (Users, Response))
    ensures r.1.status == CREATED <==> r.0 != users
    ensures r.1.status == CREATED ==>
      && body.email !in users && crypto.hash(body.password).Some?
      && r.0 == users[body.email := UserRecord(newId, body.firstName, body.lastName, body.email, crypto.hash(body.password).value)]
    ensures r.1.status != CREATED ==> r.0 == users
    ensures body.email in users ==> r.1 == Reply(BAD_REQUEST, "User already exists")
    ensures r.1.status in {CREATED, BAD_REQUEST, INTERNAL_SERVER_ERROR}
    ensures KeyedByEmail(users) ==> KeyedByEmail(r.0)
    ensures body.email !in users && crypto.hash(body.password).Some? && !createSucceeds ==>
      r == (users, Failure("registration failed"))
    ensures body.email !in users && crypto.hash(body.password).Some? && createSucceeds ==>
      r.1 == Reply(CREATED, "User registered successfully")
    ensures body.email !in users && crypto.hash(body.password).None? ==>
      r == (users, Failure("registration failed"))
  {
    if body.email in users then
      (users, Reply(BAD_REQUEST, "User already exists"))
    else
      match crypto.hash(body.password)
      case None => (users, Failure("registration failed"))
      case Some(hashed) =>
        var record := UserRecord(newId, body.firstName, body.lastName, body.email, hashed);
        if createSucceeds then
          assert body.email in users[body.email := record];
          (users[body.email := record], Reply(CREATED, "User registered successfully"))
        else
          (users, Failure("registration failed"))
  }

  /** Where the write goes through, the corrected handler and the original
      agree. */
  lemma RegisterAwaitedAgrees(users: Users, crypto: Crypto, body: RegisterBody, newId: string)
    ensures RegisterAwaited(users, crypto, body, newId, true) == Register(users, crypto, body, newId, true)
  {
  }

  /** `login`. Checks run in order: known email, matching password, a truthy
      access token; the refresh token and its cookie come only after. The
      collection is only read. */
  function Login(users: Users, crypto: Crypto, nodeEnv: Option<string>, email: string, password: string): (r: Response)
    ensures email !in users ==> r == Reply(UNAUTHORIZED, "Invalid email ")
    ensures email in users && crypto.compare(password, users[email].password) == Some(false) ==>
      r == Reply(UNAUTHORIZED, "Invalid password")
    ensures (&& email in users
             && crypto.compare(password, users[email].password) == Some(true)
             && crypto.signAccess(AccessClaims(users[email].id, users[email].email)) == Some(""))
      ==> r == Reply(NOT_FOUND, "user not found")
    ensures r.status == OK <==>
      && email in users
      && crypto.compare(password, users[email].password) == Some(true)
      && Truthy(crypto.signAccess(AccessClaims(users[email].id, users[email].email)))
      && crypto.signRefresh(RefreshClaims(users[email].id)).Some?
    ensures r.status == OK ==>
      && r.message == "Login Successful"
      && r.accessToken == crypto.signAccess(AccessClaims(users[email].id, users[email].email))
      && r.cookie == Some(RefreshCookie(crypto.signRefresh(RefreshClaims(users[email].id)).value, nodeEnv))
      && r.user == Some(Sanitize(users[email]))
    ensures r.status in {OK, UNAUTHORIZED, NOT_FOUND, INTERNAL_SERVER_ERROR}
    ensures r.status != OK ==> r.accessToken.None? && r.cookie.None? && r.user.None?
    ensures r.status == INTERNAL_SERVER_ERROR <==> r == Failure("Login failed")
    ensures email in users && crypto.compare(password, users[email].password).None? ==>
      r == Failure("Login failed")
    ensures (&& email in users
             && crypto.compare(password, users[email].password) == Some(true)
             && crypto.signAccess(AccessClaims(users[email].id, users[email].email)).None?)
      ==> r == Failure("Login failed")
    ensures (&& email in users
             && crypto.compare(password, users[email].password) == Some(true)
             && Truthy(crypto.signAccess(AccessClaims(users[email].id, users[email].email)))
             && crypto.signRefresh(RefreshClaims(users[email].id)).None?)
      ==> r == Failure("Login failed")
  {
    if email !in users then
      Reply(UNAUTHORIZED, "Invalid email ")
    else
      var user := users[email];
      match crypto.compare(password, user.password)
      case None => Failure("Login failed")
      case Some(isMatch) =>
        if !isMatch then
          Reply(UNAUTHORIZED, "Invalid password")
        else
          var accessToken := crypto.signAccess(AccessClaims(user.id, user.email));
          if accessToken.None? then
            Failure("Login failed")
          else if !Truthy(accessToken) then
            Reply(NOT_FOUND, "user not found")
          else
            match crypto.signRefresh(RefreshClaims(user.id))
            case None => Failure("Login failed")
            case Some(refreshToken) =>
              Response(OK, "Login Successful", accessToken, Some(Sanitize(user)), Some(RefreshCookie(refreshToken, nodeEnv)), false)
  }

  /** The two credential failures are told apart: an observer learns whether
      the email is registered. */
  lemma LoginFailuresDistinguishable(users: Users, crypto: Crypto, nodeEnv: Option<string>,
                                     unknown: string, known: string, p1: string, p2: string)
    requires unknown !in users && known in users
    requires crypto.compare(p2, users[known].password) == Some(false)
    ensures Login(users, crypto, nodeEnv, unknown, p1).status == Login(users, crypto, nodeEnv, known, p2).status
    ensures Login(users, crypto, nodeEnv, unknown, p1).message != Login(users, crypto, nodeEnv, known, p2).message
  {
    assert "Invalid email "[8] != "Invalid password"[8];
  }
}

=== FILE: wrappers.dfy ===
/** Optional values, standing in for JavaScript's `null`/`undefined` and for
    operations that may throw. */
module Wrappers {

  datatype Option<+T> = None | Some(value: T)

  /** The entry stored under `k`, if any. */
  function Get<K, V>(m: map<K, V>, k: K): (r: Option<V>)
    ensures r.Some? <==> k in m
    ensures r.Some? ==> r.value == m[k]
  {
    if k in m then Some(m[k]) else None
  }
}
